=== FILE: README.md ===
# tuilet command assembly, font catalog and font selection

tuilet is a terminal front-end for the `toilet` banner renderer. The user
types a text, picks a font and optionally types extra flags. tuilet then
assembles two shell command lines:

- the *display* command line, shown to the user, copied to the clipboard
  and printed on exit;
- the *internal* command line, run to fill the preview. It is the display
  one plus a `--width` argument fitted to the terminal.

This project models in Dafny:

- the command assembler `State::exec`;
- the font catalog built at start-up (every font directory scanned, then
  stably sorted by lower-cased name);
- the cyclic font selection `font` / `next_font` / `prev_font`;
- the font scanner `get_fonts_from_dir` / `maybe_fonts`, including the
  regular-expression prefix removal that derives a font's name from its
  path.

Modules:

- `Wrappers`: `Option` and `Result`.
- `Text`: string helpers. These are character counts, prefix, suffix and
  substring tests, ASCII lower-casing, lexicographic order, and decimal
  formatting and parsing.
- `Shell`: an independent reference for what a POSIX shell does with a
  command line. It splits the line into words, with double quotes read as
  in section 2.2.3 and single quotes as in section 2.2.2 of the POSIX.1-2017
  Shell Command Language. Operators, expansions and unclosed quotes give
  `None`. This is the reference the assembled command lines are proved
  against: the words the shell hands to `toilet` are exactly the intended
  arguments. The program path must be a word the shell runs as a command
  name, that is, neither a variable assignment (it holds no `=`) nor one of
  the reserved words of section 2.4.
- `Escaping`: the two `replace` passes applied to the input text. They are
  proved equal to a per-character reference. Both a round trip through the
  shell's double-quote reading and its failure cases are proved.
- `Fonts`: directory listings (given as input) turned into `Font` records.
- `Catalog`: concatenation of the scans and the stable sort by lower-cased
  name, proved to be a permutation, sorted, order-preserving per key, and
  the unique such result.
- `Cmdline`: the display and internal command lines, their relationship,
  and the argument vectors a shell would pass to the renderer.
- `Session`: the session state, `State::new` once the renderer has been
  found, the font selection, and `exec` up to running the commands.

Facts about the code that the model keeps:

- The width is injected whenever `width > 0` and the flags do not already
  mention `--width` (src/state.rs:116). On a one-column terminal the `usize`
  subtraction `width - 2` wraps around in a release build; see
  `Cmdline.InjectedWidthValue`.
- A failed lookup of the renderer's default font directory panics
  (src/fonts.rs:11). The lookup is outside the model: the directory is a
  parameter of `Session.New`.
- `main.rs` calls a `State::init`, while `state.rs` defines
  `State::new(&Opts)`. The model follows `state.rs`.

## Model

| member | source | states |
|---|---|---|
| Text.ContainsIffOccurs | src/state.rs:116 | the `--width` substring test holds exactly when some window of the flags spells `--width`, in both directions |
| Text.NatToString | src/state.rs:117 | the width is printed as a non-empty string of decimal digits without a leading zero, and zero prints as `0` |
| Text.ParseNatToString | src/state.rs:117 | the printed width reads back as the same number |
| Text.AsciiLower | src/state.rs:77 | lower-casing keeps the length, maps `A`–`Z` to `a`–`z` and keeps every other character |
| Text.LexLeReflexive | src/state.rs:77 | the string order used by the sort relates every key to itself |
| Text.LexLeTotal | src/state.rs:77 | any two sort keys are ordered one way or the other |
| Text.LexLeTransitive | src/state.rs:77 | the string order is transitive |
| Text.LexLeAntisymmetric | src/state.rs:77 | keys ordered both ways are equal |
| Escaping.ReplaceCharOne | src/state.rs:122-123 | a single character becomes the replacement when it is the replaced character and stays as it is otherwise |
| Escaping.ReplaceCharConcat | src/state.rs:122-123 | replacing in a concatenation replaces in each part, so with the single-character case every occurrence is replaced and nothing else changes |
| Escaping.EscapeIsPerCharacter | src/state.rs:120-123 | the two replacement passes (backslashes first) equal escaping each character on its own |
| Escaping.EscapeLength | src/state.rs:120-123 | escaping adds exactly one character per backslash and per double quote |
| Escaping.EscapeIdentity | src/state.rs:120-123 | a text without backslashes or double quotes is not changed |
| Escaping.EscapeRoundTrip | src/state.rs:120-125 | a shell reading the quoted, escaped text gets the original text back, and the closing quote is the one that ends the string |
| Escaping.ExpansionNotReadBack | src/state.rs:120-125 | a text holding `$` or a backquote is not read back, because those are left unescaped |
| Escaping.EscapeArmorsQuotes | src/state.rs:120-123 | every double quote of the escaped text follows an odd run of backslashes, and the text ends after an even run |
| Cmdline.WrappingSub | src/state.rs:117 | unsigned `width - 2` as computed modulo 2^64: adding 2 back gives the width, with a wrap when the width is below 2 |
| Cmdline.InjectedWidthValue | src/state.rs:116-117 | the injected argument reads back as the width less 2, and as 2^64 - 1 on a one-column terminal |
| Cmdline.InternalVersusDisplay | src/state.rs:113-127 | the two command lines agree outside the width fragment; cutting it out of the internal line gives the display line, and they are equal when no width is injected |
| Cmdline.WidthOnlyInternal | src/state.rs:113-118 | after the font arguments, ` --width ` follows in the internal line exactly when a width is injected, and never in the display line |
| Cmdline.DisplayDirFragmentIff | src/state.rs:104-111 | after the font name, the display line names the font directory exactly when it differs from the default |
| Cmdline.InternalDirFragmentIff | src/state.rs:104-118 | the same holds of the internal line, width argument or not |
| Cmdline.DisplayWords | src/state.rs:99-127 | a shell splits the display line into the program, the flags' words, `-f` and the name, `-d` and the directory when it is not the default, and the input text unaltered |
| Cmdline.InternalWords | src/state.rs:99-127 | the internal line splits into the same words with `--width` and its value before the text when a width is injected |
| Cmdline.InjectedWidthWords | src/state.rs:113-127 | with a width injected, the internal line's words carry `--width` and the printed value just before the input text |
| Fonts.FirstMatch | src/fonts.rs:32-33 | a match of `.+/` lies within one line, has at least one character before its final `/`, and ends on that `/` |
| Fonts.FirstMatchLeftmostGreedy | src/fonts.rs:32-33 | the match found is the regex engine's: no earlier position starts a match (leftmost), and it ends on the last `/` of its line (greedy) |
| Fonts.NoFirstMatch | src/fonts.rs:32-33 | when nothing matches, no position has a `/` later on its line |
| Fonts.StripToLastSlash | src/fonts.rs:32-33 | for a path without newlines whose last `/` is not its first character, the removal leaves exactly the text after that `/` |
| Fonts.StripKeepsSlashFreeTail | src/fonts.rs:33 | a tail of the path without `/` survives the removal, so the extension is kept |
| Fonts.StripDirPrefixSingleLine | src/fonts.rs:32-33 | for a path without newlines the removal leaves exactly the text after the last `/`, a `/`-free suffix of the path, or the whole path when no `/` follows its first character |
| Fonts.FontName | src/fonts.rs:31-35 | the name is the stripped path less its four-character extension |
| Fonts.MaybeFonts | src/fonts.rs:26-44 | an unreadable directory or a failed entry is an error; otherwise the fonts of the listed font files, in listing order |
| Fonts.GetFontsFromDir | src/fonts.rs:16-24 | a failed scan gives no fonts, a successful one its fonts |
| Fonts.FontsOfMembers | src/fonts.rs:28-43 | every font found carries the scanned directory; a font is found exactly when a listed font file yields it; no more fonts than paths |
| Fonts.FontsOfInOrder | src/fonts.rs:28-43 | the fonts of a listing are the fonts before a path, that path's font if any, then the fonts after it |
| Catalog.SortPermutes | src/state.rs:77 | sorting keeps every font, as many times as it occurs |
| Catalog.SortSorted | src/state.rs:77 | lower-cased names never decrease along the sorted catalog |
| Catalog.SortStable | src/state.rs:77 | fonts with equal lower-cased names keep their relative order |
| Catalog.StableSortUnique | src/state.rs:77 | two sorted lists with the same per-key order are equal, so the catalog is the one stable sort of its input |
| Catalog.BuildCatalog | src/state.rs:72-77 | the catalog is a sorted, per-key order-preserving permutation of the default directory's fonts followed by each extra directory's fonts |
| Session.New | src/state.rs:64-91 | the catalog is the stable sort of all scans in directory order, the first font is selected, and the text, flags, command line and width start empty |
| Session.ScanDirs | src/state.rs:74-76 | the extra directories are scanned in the order given |
| Session.SelectedFont | src/state.rs:149-151 | the selected font is a font of the catalog |
| Session.NextFont | src/state.rs:153-157 | the next font is selected, wrapping from the last to the first; only the index changes and the returned font is the selected one |
| Session.PrevFont | src/state.rs:159-164 | the previous font is selected, wrapping from the first to the last; only the index changes and the returned font is the selected one |
| Session.PrevUndoesNext | src/state.rs:153-164 | stepping back after stepping forward restores the state |
| Session.NextUndoesPrev | src/state.rs:153-164 | stepping forward after stepping back restores the state |
| Session.NextTimesIndex | src/state.rs:153-157 | `k` steps forward move the selection `k` places on, cyclically |
| Session.Exec | src/state.rs:95-129 | the stored command line is the display command line of the current request and the returned one the internal command line; only the stored display command line changes; the internal line is the display line with the width fragment put in after the font arguments; when shell-readable, both split into the intended renderer arguments |

## Left out

- Running the two command lines through `sh -c`, capturing their output,
  `trim_end`, the UTF-8 `unwrap`s and the ANSI-to-widget conversion: these
  are process I/O. `Session.Exec` returns the internal command line instead
  of its output.
- `verify_toilet_exe` and `default_font_dir`, which run the renderer. The
  default font directory and each directory's listing are parameters.
- The terminal interface in `main.rs`: layout, key dispatch, focus cycling,
  clipboard copy and the exit print. Option parsing in `opts.rs` is also
  left out; its result is the parameters of `Session.New`.
- `Session.Exec` requires a selected font. With an empty catalog the source
  panics when indexing the fonts, and nothing checks for this at start-up.
- Full Unicode `to_lowercase`: the sort key lower-cases ASCII letters only.
- A path that is not valid UTF-8 (`to_str().unwrap()` panics): paths are
  strings already.
- Overflow of `font_index + 1` and `font_index + len - 1` in `usize`. A
  catalog never comes near that size, and the indices are unbounded here.
- The panic a debug build raises for `width - 2` on a one-column terminal.
  The model follows a release build, which wraps.
- `Shell.Words` reads only the POSIX subset the assembler produces. Flags
  holding operators, expansions or unbalanced quotes are outside it, and so
  is a program path holding `=` or spelling a reserved word. The
  argument-vector properties are stated for shell-readable requests only.
- Escaping.EscapeRoundTrip: the round trip requires a text without `$` and
  backquotes. The assembler leaves those unescaped, so a shell may expand
  them; the shell model refuses every `$` and backquote inside double
  quotes, and `Escaping.ExpansionNotReadBack` states that case.
- Cmdline.DisplayDirFragmentIff: states that the directory is named exactly
  once as "the fragment follows the font name" and as one `-d` in the
  argument vector, not as a count of substrings in the whole line. The
  user's flags or text may contain the same characters.

=== FILE: catalog.dfy ===
/**
 * The font catalog: the default directory's fonts, then each extra
 * directory's fonts in the order given, stably sorted by lower-cased name.
 */
module Catalog {
  import opened Text
  import opened Fonts

  /** The sort key: the font name, lower-cased. */
  function Key(f: Font): string {
    AsciiLower(f.name)
  }

  predicate SortedByKey(s: seq<Font>) {
    forall i, j :: 0 <= i < j < |s| ==> LexLe(Key(s[i]), Key(s[j]))
  }

  /** The fonts of `s` whose key is `k`, in their order in `s`. */
  function WithKey(s: seq<Font>, k: string): (r: seq<Font>)
    ensures forall f :: f in r ==> f in s && Key(f) == k
    decreases |s|
  {
    if s == [] then []
    else (if Key(s[0]) == k then [s[0]] else []) + WithKey(s[1..], k)
  }

  /**
   * A stable sort keeps, for every key, the fonts with that key in their
   * original relative order.
   */
  ghost predicate SameOrderPerKey(a: seq<Font>, b: seq<Font>) {
    forall k :: WithKey(a, k) == WithKey(b, k)
  }

  /** `c` is a stable sort of `all` by key: the same fonts, sorted, in the same order per key. */
  ghost predicate StableSortOf(c: seq<Font>, all: seq<Font>) {
    multiset(c) == multiset(all) && SortedByKey(c) && SameOrderPerKey(c, all)
  }

  /** Places `x` in front of the first font whose key is not below `x`'s. */
  function Insert(x: Font, t: seq<Font>): seq<Font>
    decreases |t|
  {
    if t == [] then [x]
    else if LexLe(Key(x), Key(t[0])) then [x] + t
    else [t[0]] + Insert(x, t[1..])
  }

  /** Insertion sort; ties keep their input order. */
  function Sort(s: seq<Font>): seq<Font>
    decreases |s|
  {
    if s == [] then [] else Insert(s[0], Sort(s[1..]))
  }

  function Flatten(lists: seq<seq<Font>>): seq<Font>
    decreases |lists|
  {
    if lists == [] then [] else lists[0] + Flatten(lists[1..])
  }

  lemma {:induction false} InsertPermutes(x: Font, t: seq<Font>)
    ensures multiset(Insert(x, t)) == multiset(t) + multiset{x}
    decreases |t|
  {
    if t != [] && !LexLe(Key(x), Key(t[0])) {
      InsertPermutes(x, t[1..]);
      assert t == [t[0]] + t[1..];
    }
  }

  lemma {:induction false} InsertMembers(x: Font, t: seq<Font>)
    ensures forall y :: y in Insert(x, t) ==> y == x || y in t
    decreases |t|
  {
    if t != [] && !LexLe(Key(x), Key(t[0])) {
      InsertMembers(x, t[1..]);
    }
  }

  /** Every key in `s` is at least `k`. */
  predicate KeysFrom(k: string, s: seq<Font>) {
    forall i :: 0 <= i < |s| ==> LexLe(k, Key(s[i]))
  }

  lemma {:induction false} InsertSorted(x: Font, t: seq<Font>)
    requires SortedByKey(t)
    ensures SortedByKey(Insert(x, t))
    decreases |t|
  {
    if t == [] {
    } else if LexLe(Key(x), Key(t[0])) {
      InsertFrontSorted(x, t);
    } else {
      InsertSorted(x, t[1..]);
      LexLeTotal(Key(x), Key(t[0]));
      InsertKeysFrom(x, t);
      ConsSorted(t[0], Insert(x, t[1..]));
    }
  }

  lemma InsertFrontSorted(x: Font, t: seq<Font>)
    requires SortedByKey(t) && t != [] && LexLe(Key(x), Key(t[0]))
    ensures SortedByKey([x] + t)
  {
    var r := [x] + t;
    forall i, j | 0 <= i < j < |r|
      ensures LexLe(Key(r[i]), Key(r[j]))
    {
      if i == 0 && j > 1 {
        LexLeTransitive(Key(x), Key(t[0]), Key(t[j - 1]));
      }
    }
  }

  lemma InsertKeysFrom(x: Font, t: seq<Font>)
    requires SortedByKey(t) && t != [] && LexLe(Key(t[0]), Key(x))
    ensures KeysFrom(Key(t[0]), Insert(x, t[1..]))
  {
    var rest := Insert(x, t[1..]);
    InsertMembers(x, t[1..]);
    forall i | 0 <= i < |rest|
      ensures LexLe(Key(t[0]), Key(rest[i]))
    {
      var y := rest[i];
      assert y in rest;
      if y != x {
        var m :| 0 <= m < |t[1..]| && t[1..][m] == y;
        assert t[m + 1] == y;
      }
    }
  }

  lemma ConsSorted(y: Font, s: seq<Font>)
    requires SortedByKey(s) && KeysFrom(Key(y), s)
    ensures SortedByKey([y] + s)
  {
    var r := [y] + s;
    forall i, j | 0 <= i < j < |r|
      ensures LexLe(Key(r[i]), Key(r[j]))
    {
      if i == 0 {
        assert r[j] == s[j - 1];
      } else {
        assert r[i] == s[i - 1] && r[j] == s[j - 1];
      }
    }
  }

  lemma WithKeyCons(y: Font, s: seq<Font>, k: string)
    ensures WithKey([y] + s, k) == (if Key(y) == k then [y] else []) + WithKey(s, k)
  {
    assert ([y] + s)[1..] == s;
  }

  lemma {:induction false} InsertWithKey(x: Font, t: seq<Font>, k: string)
    ensures WithKey(Insert(x, t), k) == (if Key(x) == k then [x] else []) + WithKey(t, k)
    decreases |t|
  {
    if t == [] {
      WithKeyCons(x, [], k);
    } else if LexLe(Key(x), Key(t[0])) {
      WithKeyCons(x, t, k);
    } else {
      var y, rest := t[0], t[1..];
      assert Insert(x, t) == [y] + Insert(x, rest);
      InsertWithKey(x, rest, k);
      WithKeyCons(y, Insert(x, rest), k);
      WithKeyCons(y, rest, k);
      assert t == [y] + rest;
      DistinctKeys(x, y);
      var hx := if Key(x) == k then [x] else [];
      var hy := if Key(y) == k then [y] else [];
      SwapEither(hy, hx, WithKey(rest, k));
    }
  }

  lemma SwapEither(a: seq<Font>, b: seq<Font>, c: seq<Font>)
    requires a == [] || b == []
    ensures a + (b + c) == b + (a + c)
  {
    if a == [] {
      assert a + (b + c) == b + c == b + (a + c);
    } else {
      assert a + (b + c) == a + c == b + (a + c);
    }
  }

  /** A font placed after `y` has a different key. */
  lemma DistinctKeys(x: Font, y: Font)
    requires !LexLe(Key(x), Key(y))
    ensures Key(x) != Key(y)
  {
    LexLeReflexive(Key(x));
  }

  /** The sorted list holds the same fonts, as many times each. */
  lemma {:induction false} SortPermutes(s: seq<Font>)
    ensures multiset(Sort(s)) == multiset(s)
    decreases |s|
  {
    if s != [] {
      var x, tail := s[0], s[1..];
      assert multiset(s) == multiset(tail) + multiset{x} by {
        assert s == [x] + tail;
      }
      SortPermutes(tail);
      InsertPermutes(x, Sort(tail));
    }
  }

  /** Keys never decrease along the sorted list. */
  lemma {:induction false} SortSorted(s: seq<Font>)
    ensures SortedByKey(Sort(s))
    decreases |s|
  {
    if s != [] {
      SortSorted(s[1..]);
      InsertSorted(s[0], Sort(s[1..]));
    }
  }

  /** Fonts with equal keys keep their relative order. */
  lemma {:induction false} SortStable(s: seq<Font>)
    ensures SameOrderPerKey(Sort(s), s)
    decreases |s|
  {
    if s != [] {
      SortStable(s[1..]);
      forall k
        ensures WithKey(Sort(s), k) == WithKey(s, k)
      {
        InsertWithKey(s[0], Sort(s[1..]), k);
      }
    }
  }

  lemma {:induction false} WithKeyHead(s: seq<Font>)
    requires s != []
    ensures WithKey(s, Key(s[0])) != [] && WithKey(s, Key(s[0]))[0] == s[0]
  {
  }

  /** The first font of a sorted list comes no later, by key, than any font with the same per-key order elsewhere. */
  lemma HeadKeyBelow(a: seq<Font>, b: seq<Font>)
    requires SortedByKey(a) && a != [] && b != []
    requires SameOrderPerKey(a, b)
    ensures LexLe(Key(a[0]), Key(b[0]))
  {
    var y := b[0];
    WithKeyHead(b);
    assert y in WithKey(a, Key(y)) by {
      assert WithKey(b, Key(y))[0] == y;
      assert WithKey(a, Key(y)) == WithKey(b, Key(y));
    }
    var i :| 0 <= i < |a| && a[i] == y;
    if i > 0 {
      assert LexLe(Key(a[0]), Key(a[i]));
    } else {
      LexLeReflexive(Key(y));
    }
  }

  /** Two sorted lists with the same per-key order start with the same font. */
  lemma SameHead(a: seq<Font>, b: seq<Font>)
    requires SortedByKey(a) && SortedByKey(b) && a != [] && b != []
    requires SameOrderPerKey(a, b)
    ensures a[0] == b[0]
  {
    var x, y := a[0], b[0];
    HeadKeyBelow(a, b);
    HeadKeyBelow(b, a);
    LexLeAntisymmetric(Key(x), Key(y));
    WithKeyHead(a);
    WithKeyHead(b);
    assert WithKey(a, Key(x)) == WithKey(b, Key(x));
  }

  /** Dropping a common first font keeps the per-key order equal. */
  lemma SameOrderTails(a: seq<Font>, b: seq<Font>)
    requires a != [] && b != [] && a[0] == b[0]
    requires SameOrderPerKey(a, b)
    ensures SameOrderPerKey(a[1..], b[1..])
  {
    var x := a[0];
    forall k
      ensures WithKey(a[1..], k) == WithKey(b[1..], k)
    {
      var head := if Key(x) == k then [x] else [];
      assert WithKey(a, k) == head + WithKey(a[1..], k);
      assert WithKey(b, k) == head + WithKey(b[1..], k);
      assert WithKey(a[1..], k) == WithKey(a, k)[|head|..];
      assert WithKey(b[1..], k) == WithKey(b, k)[|head|..];
    }
  }

  /**
   * Sortedness and per-key order pin the result down: any two sorted
   * lists with the same fonts in the same per-key order are equal. So the
   * catalog is the one stable sort of its input, whatever algorithm
   * computes it.
   */
  lemma {:induction false} StableSortUnique(a: seq<Font>, b: seq<Font>)
    requires SortedByKey(a) && SortedByKey(b)
    requires SameOrderPerKey(a, b)
    ensures a == b
    decreases |a|
  {
    if a == [] {
      if b != [] {
        WithKeyHead(b);
        assert false;
      }
    } else if b == [] {
      WithKeyHead(a);
      assert false;
    } else {
      SameHead(a, b);
      SameOrderTails(a, b);
      StableSortUnique(a[1..], b[1..]);
      assert a == [a[0]] + a[1..];
      assert b == [b[0]] + b[1..];
    }
  }

  /**
   * The catalog built at start-up: the default directory's scan, then each
   * extra directory's scan in the order given, sorted by lower-cased name.
   */
  function BuildCatalog(defaultFonts: seq<Font>, extraFonts: seq<seq<Font>>): (catalog: seq<Font>)
    ensures multiset(catalog) == multiset(defaultFonts + Flatten(extraFonts))
    ensures SortedByKey(catalog)
    ensures SameOrderPerKey(catalog, defaultFonts + Flatten(extraFonts))
  {
    var all := defaultFonts + Flatten(extraFonts);
    SortPermutes(all);
    SortSorted(all);
    SortStable(all);
    Sort(all)
  }
}

=== FILE: cmdline.dfy ===
/**
 * The command assembler: the renderer command line shown to the user
 * (display) and the one run to fill the preview (internal), which differs
 * only by a `--width` argument fitted to the terminal.
 */
module Cmdline {
  import opened Wrappers
  import opened Text
  import opened Shell
  import opened Escaping
  import opened Fonts

  /** What the assembler reads from the session. */
  datatype Request = Request(
    exe: string,
    flags: string,
    font: Font,
    defaultFontDir: string,
    input: string,
    width: Usize)

  /** The preview gets a width argument when the terminal width is known and the flags set none. */
  predicate InjectsWidth(q: Request) {
    q.width > 0 && !Contains(q.flags, "--width")
  }

  /** `usize` is 64 bits wide. */
  const UsizeLimit: nat := 0x1_0000_0000_0000_0000

  type Usize = x: nat | x < UsizeLimit

  /**
   * Unsigned subtraction as a release build computes it: modulo 2^64, so
   * that adding `b` back gives `a` again.
   */
  function WrappingSub(a: Usize, b: Usize): (r: Usize)
    ensures b <= a ==> r + b == a
    ensures a < b ==> r + b == a + UsizeLimit
  {
    if b <= a then a - b else UsizeLimit - (b - a)
  }

  function FlagsPart(flags: string): string {
    if flags == [] then [] else " " + flags
  }

  /** Program, flags and font name: the part every command line starts with. */
  function Head(q: Request): string {
    q.exe + FlagsPart(q.flags) + " -f \"" + q.font.name + "\""
  }

  /** The font directory is named only when it is not the renderer's own. */
  function DirPart(q: Request): string {
    if q.font.dir != q.defaultFontDir then DirFragment(q.font.dir) else []
  }

  function Prefix(q: Request): string {
    Head(q) + DirPart(q)
  }

  /** Two columns of the terminal are taken by the preview's borders. */
  function WidthPart(q: Request): string {
    if InjectsWidth(q) then " --width " + NatToString(WrappingSub(q.width, 2)) else []
  }

  function QuotedInput(input: string): string {
    " \"" + Escape(input) + "\""
  }

  /** The command line the user sees, copies, and gets printed on exit. */
  function Display(q: Request): string {
    Prefix(q) + QuotedInput(q.input)
  }

  /** The command line run to produce the preview. */
  function Internal(q: Request): string
  {
    Prefix(q) + WidthPart(q) + QuotedInput(q.input)
  }

  /**
   * The two command lines agree up to the end of the font arguments and
   * from the quoted input on; in between, the internal one carries the
   * width argument exactly when one is injected. Cutting that fragment out
   * of the internal command line gives the display command line.
   */
  lemma InternalVersusDisplay(q: Request)
    ensures !InjectsWidth(q) ==> Internal(q) == Display(q)
    ensures InjectsWidth(q) ==>
              |Internal(q)| == |Display(q)| + |" --width "| + |NatToString(WrappingSub(q.width, 2))|
    ensures var k := |Prefix(q)|;
            var n := |Internal(q)| - |Display(q)|;
            && k + n <= |Internal(q)|
            && Internal(q)[..k] == Display(q)[..k]
            && Internal(q)[k + n..] == Display(q)[k..]
            && Internal(q)[..k] + Internal(q)[k + n..] == Display(q)
            && (InjectsWidth(q) ==> Internal(q)[k..k + n] == " --width " + NatToString(WrappingSub(q.width, 2)))
  {
    var p, w, t := Prefix(q), WidthPart(q), QuotedInput(q.input);
    SliceThree(p, w, t);
    SliceThree(p, [], t);
    assert p + [] + t == Display(q);
  }

  /**
   * Right after the font arguments, the internal command line continues
   * with ` --width ` exactly when a width is injected; the display command
   * line never does.
   */
  lemma WidthOnlyInternal(q: Request)
    ensures StartsWith(Internal(q)[|Prefix(q)|..], " --width ") <==> InjectsWidth(q)
    ensures !StartsWith(Display(q)[|Prefix(q)|..], " --width ")
  {
    var p, w, t := Prefix(q), WidthPart(q), QuotedInput(q.input);
    var frag := " --width ";
    assert t[1] == '"' && frag[1] == '-';
    if InjectsWidth(q) {
      OptionalAfter(p, w, t, frag, NatToString(WrappingSub(q.width, 2)), 1);
    } else {
      OptionalAfter(p, [], t, frag, [], 1);
      assert w == [];
    }
    OptionalAfter(p, [], t, frag, [], 1);
    assert p + [] + t == Display(q);
  }

  function DirFragment(dir: string): string {
    " -d \"" + dir + "\""
  }

  /**
   * Right after the font name, the display command line continues with
   * ` -d "<dir>"` exactly when the font's directory is not the default one.
   */
  lemma DisplayDirFragmentIff(q: Request)
    ensures StartsWith(Display(q)[|Head(q)|..], DirFragment(q.font.dir))
            <==> q.font.dir != q.defaultFontDir
  {
    var t, frag := QuotedInput(q.input), DirFragment(q.font.dir);
    assert t[1] == '"' && frag[1] == '-';
    OptionalAfter(Head(q), DirPart(q), t, frag, [], 1);
    assert DirPart(q) != [] <==> q.font.dir != q.defaultFontDir;
  }

  /** The same holds of the internal command line, width argument or not. */
  lemma InternalDirFragmentIff(q: Request)
    ensures StartsWith(Internal(q)[|Head(q)|..], DirFragment(q.font.dir))
            <==> q.font.dir != q.defaultFontDir
  {
    var rest, frag := WidthPart(q) + QuotedInput(q.input), DirFragment(q.font.dir);
    assert Internal(q) == Head(q) + DirPart(q) + rest;
    assert frag[1] == '-' && frag[2] == 'd';
    if InjectsWidth(q) {
      assert rest[2] == '-';
      OptionalAfter(Head(q), DirPart(q), rest, frag, [], 2);
    } else {
      assert rest[1] == '"';
      OptionalAfter(Head(q), DirPart(q), rest, frag, [], 1);
    }
    assert DirPart(q) != [] <==> q.font.dir != q.defaultFontDir;
  }

  /**
   * The width argument reads back as the terminal width less the two
   * border columns. On a one-column terminal the unsigned subtraction wraps
   * round to the largest `usize`, far wider than the terminal.
   */
  lemma InjectedWidthValue(q: Request)
    requires InjectsWidth(q)
    ensures |WidthArgs(q)| == 2 && WidthArgs(q)[0] == "--width"
    ensures q.width >= 2 ==> ParseDecimal(WidthArgs(q)[1]) == q.width - 2 < q.width
    ensures q.width == 1 ==> ParseDecimal(WidthArgs(q)[1]) == UsizeLimit - 1 > q.width
  {
    ParseNatToString(WrappingSub(q.width, 2));
  }

  /** Text the assembler puts between double quotes unescaped must not need escaping. */
  predicate QuoteSafe(s: string) {
    '"' !in s && '\\' !in s && NoExpansion(s)
  }

  /**
   * Command lines the word-splitting model can read, with the program path
   * taken as the command name.
   */
  predicate ShellReadable(q: Request) {
    CommandName(q.exe) && ArgsReadable(q)
  }

  /**
   * The arguments split as intended: flags that split into words, quote-safe
   * font name and directory, and an input free of expansion characters.
   */
  predicate ArgsReadable(q: Request) {
    && Words(q.flags).Some?
    && QuoteSafe(q.font.name)
    && (q.font.dir != q.defaultFontDir ==> QuoteSafe(q.font.dir))
    && NoExpansion(q.input)
  }

  function DirArgs(q: Request): seq<string> {
    if q.font.dir != q.defaultFontDir then ["-d", q.font.dir] else []
  }

  function WidthArgs(q: Request): seq<string> {
    if InjectsWidth(q) then ["--width", NatToString(WrappingSub(q.width, 2))] else []
  }

  /** Reference definition: the arguments the renderer should receive for the display command line. */
  function DisplayArgv(q: Request): seq<string>
    requires Words(q.flags).Some?
  {
    [q.exe] + Words(q.flags).value + ["-f", q.font.name] + DirArgs(q) + [q.input]
  }

  /** Reference definition: the same arguments with the width argument before the text. */
  function InternalArgv(q: Request): seq<string>
    requires Words(q.flags).Some?
  {
    [q.exe] + Words(q.flags).value + ["-f", q.font.name] + DirArgs(q) + WidthArgs(q) + [q.input]
  }

  /** A quoted, escaped text is one word: the text itself. */
  lemma QuotedWord(s: string)
    requires NoExpansion(s)
    ensures Words("\"" + Escape(s) + "\"") == Some([s])
  {
    var t := "\"" + Escape(s) + "\"";
    EscapeRoundTrip(s, []);
    assert t[1..] == Escape(s) + "\"" + [];
    assert !Blank(t[0]) && t[0] == '"';
    assert InWord(t, []) == InWord([], [] + s);
    assert [] + s == s;
  }

  /** Two plain words, then more words. */
  lemma TwoWordsThen(a: string, b: string, t: string) returns (r: string)
    requires PlainWord(a) && PlainWord(b) && Words(t).Some?
    ensures " " + a + " " + b + (" " + t) == " " + r
    ensures Words(r) == Some([a, b] + Words(t).value)
  {
    var ws := Words(t).value;
    WordsCons(b, t);
    var u := b + " " + t;
    assert Words(u) == Some([b] + ws);
    WordsCons(a, u);
    assert [a] + ([b] + ws) == [a, b] + ws;
    r := a + " " + u;
  }

  /** The width argument, then the quoted text. */
  lemma WidthLayer(input: string, d: string) returns (r: string)
    requires NoExpansion(input)
    requires PlainWord(d)
    ensures " --width " + d + QuotedInput(input) == " " + r
    ensures Words(r) == Some(["--width", d] + [input])
  {
    assert " --width " == " " + "--width" + " ";
    assert PlainWord("--width");
    var t := "\"" + Escape(input) + "\"";
    QuotedWord(input);
    r := TwoWordsThen("--width", d, t);
    assert QuotedInput(input) == " " + t;
  }

  /** A plain word followed by a quoted, unescaped value, in front of `r`. */
  lemma QuotedArgLayer(flag: string, v: string, r: string) returns (x: string)
    requires PlainWord(flag) && QuoteSafe(v) && Words(r).Some?
    ensures " " + flag + " \"" + v + "\"" + (" " + r) == " " + x
    ensures Words(x) == Some([flag, v] + Words(r).value)
  {
    var qv := "\"" + v + "\"";
    var u := qv + " " + r;
    x := flag + " " + u;
    assert " " + flag + " \"" + v + "\"" + (" " + r) == " " + x by {
      assert " \"" == " " + "\"";
    }
    EscapeIdentity(v);
    QuotedWord(v);
    assert Words(qv) == Some([v]);
    var ws := Words(r).value;
    WordsJoin(qv, r);
    assert Words(u) == Some([v] + ws);
    WordsCons(flag, u);
    assert [flag] + ([v] + ws) == [flag, v] + ws;
  }

  /** The font directory, if named, in front of `r`. */
  lemma DirLayer(q: Request, r: string) returns (dd: string)
    requires q.font.dir != q.defaultFontDir ==> QuoteSafe(q.font.dir)
    requires Words(r).Some?
    ensures DirPart(q) + (" " + r) == " " + dd
    ensures Words(dd) == Some(DirArgs(q) + Words(r).value)
  {
    if q.font.dir != q.defaultFontDir {
      assert PlainWord("-d");
      dd := QuotedArgLayer("-d", q.font.dir, r);
      assert DirPart(q) == " " + "-d" + " \"" + q.font.dir + "\"";
    } else {
      dd := r;
      assert DirArgs(q) + Words(r).value == Words(r).value;
    }
  }

  /** The font name argument in front of `dd`. */
  lemma FontLayer(name: string, dd: string) returns (f: string)
    requires QuoteSafe(name) && Words(dd).Some?
    ensures " -f \"" + name + "\"" + (" " + dd) == " " + f
    ensures Words(f) == Some(["-f", name] + Words(dd).value)
  {
    assert PlainWord("-f");
    f := QuotedArgLayer("-f", name, dd);
    assert " -f \"" + name + "\"" == " " + "-f" + " \"" + name + "\"";
  }

  /** The flags, if any, in front of `f`. */
  lemma FlagsLayer(flags: string, f: string) returns (e: string)
    requires Words(flags).Some? && Words(f).Some?
    ensures FlagsPart(flags) + (" " + f) == " " + e
    ensures Words(e) == Some(Words(flags).value + Words(f).value)
  {
    if flags != [] {
      WordsJoin(flags, f);
      e := flags + " " + f;
    } else {
      e := f;
      assert Words(flags) == Some([]);
      assert Words(flags).value + Words(f).value == Words(f).value;
    }
  }

  /** Re-association of the layers: each one's leading space becomes the separator before the next. */
  lemma Reassociate(exe: string, fl: string, n: string, dp: string, r: string, dd: string, f: string, e: string)
    requires dp + (" " + r) == " " + dd
    requires n + (" " + dd) == " " + f
    requires fl + (" " + f) == " " + e
    ensures exe + fl + n + dp + (" " + r) == exe + " " + e
  {
    calc {
      exe + fl + n + dp + (" " + r);
      exe + fl + n + (dp + (" " + r));
      exe + fl + (n + (" " + dd));
      exe + (fl + (" " + f));
      exe + " " + e;
    }
  }

  /**
   * The words of a command line whose tail after the font arguments is
   * `" " + r`, given the words of `r`.
   */
  lemma CommandWords(q: Request, r: string)
    requires PlainWord(q.exe) && ArgsReadable(q)
    requires Words(r).Some?
    ensures Words(Prefix(q) + (" " + r))
         == Some([q.exe] + Words(q.flags).value + ["-f", q.font.name] + DirArgs(q) + Words(r).value)
  {
    var ws, fs, ds, rs := Words(q.flags).value, ["-f", q.font.name], DirArgs(q), Words(r).value;
    assert [q.exe] + (ws + (fs + (ds + rs))) == [q.exe] + ws + fs + ds + rs;
    var dd := DirLayer(q, r);
    var f := FontLayer(q.font.name, dd);
    var e := FlagsLayer(q.flags, f);
    WordsCons(q.exe, e);
    var fl, n := FlagsPart(q.flags), " -f \"" + q.font.name + "\"";
    assert Prefix(q) == q.exe + fl + n + DirPart(q);
    Reassociate(q.exe, fl, n, DirPart(q), r, dd, f, e);
    assert Words(e).value == ws + (fs + (ds + rs));
  }

  /**
   * A shell splits the display command line into exactly the program, the
   * flags' words, `-f <name>`, `-d <dir>` when the directory is not the
   * default, and the input text, unaltered.
   */
  lemma DisplayWords(q: Request)
    requires ShellReadable(q)
    ensures Words(Display(q)) == Some(DisplayArgv(q))
  {
    var t := "\"" + Escape(q.input) + "\"";
    QuotedWord(q.input);
    assert QuotedInput(q.input) == " " + t;
    CommandWords(q, t);
  }

  /** Both command lines of a shell-readable request split into their intended words. */
  lemma ReadableWords(q: Request)
    ensures ShellReadable(q) ==> Words(Display(q)) == Some(DisplayArgv(q))
    ensures ShellReadable(q) ==> Words(Internal(q)) == Some(InternalArgv(q))
  {
    if ShellReadable(q) {
      DisplayWords(q);
      InternalWords(q);
    }
  }

  /** The internal command line splits into the display arguments with the width argument before the text. */
  lemma InternalWords(q: Request)
    requires ShellReadable(q)
    ensures Words(Internal(q)) == Some(InternalArgv(q))
  {
    if InjectsWidth(q) {
      InjectedWidthWords(q);
    } else {
      InternalVersusDisplay(q);
      DisplayWords(q);
      assert InternalArgv(q) == DisplayArgv(q);
    }
  }

  lemma InjectedWidthWords(q: Request)
    requires ShellReadable(q) && InjectsWidth(q)
    ensures Words(Internal(q)) == Some(InternalArgv(q))
  {
    var d := NatToString(WrappingSub(q.width, 2));
    DigitsPlain(d);
    var r := WidthLayer(q.input, d);
    CommandWords(q, r);
    assert Internal(q) == Prefix(q) + (" " + r);
    var front := [q.exe] + Words(q.flags).value + ["-f", q.font.name] + DirArgs(q);
    assert front + (["--width", d] + [q.input]) == front + ["--width", d] + [q.input];
  }

  /** A string of decimal digits is one plain word. */
  lemma DigitsPlain(d: string)
    requires d != [] && forall i :: 0 <= i < |d| ==> IsDigit(d[i])
    ensures PlainWord(d)
  {
    forall i | 0 <= i < |d|
      ensures Ordinary(d[i])
    {
      assert IsDigit(d[i]);
    }
  }

}

=== FILE: escape.dfy ===
/**
 * Escaping of the free-form input text before it is wrapped in double
 * quotes on the renderer command line: every backslash is doubled, then
 * every double quote gets a backslash in front of it.
 */
module Escaping {
  import opened Wrappers
  import opened Text
  import opened Shell

  /** `s.replace(c, rep)` for a one-character pattern: each occurrence of `c` becomes `rep`. */
  function ReplaceChar(s: string, c: char, rep: string): (r: string)
    ensures c !in s ==> r == s
    decreases |s|
  {
    if s == [] then []
    else (if s[0] == c then rep else [s[0]]) + ReplaceChar(s[1..], c, rep)
  }

  /** One character: replaced when it is `c`, kept otherwise. */
  lemma ReplaceCharOne(x: char, c: char, rep: string)
    ensures ReplaceChar([x], c, rep) == (if x == c then rep else [x])
  {
  }

  /** The escaping as the assembler does it: two replacement passes, backslashes first. */
  function Escape(s: string): string {
    ReplaceChar(ReplaceChar(s, '\\', "\\\\"), '"', "\\\"")
  }

  /** What a single input character turns into. */
  function EscapeChar(c: char): string {
    if c == '\\' then "\\\\" else if c == '"' then "\\\"" else [c]
  }

  /** Reference definition: escape the text character by character. */
  function EscapeEach(s: string): string
    decreases |s|
  {
    if s == [] then [] else EscapeChar(s[0]) + EscapeEach(s[1..])
  }

  /** Replacing in a concatenation replaces in each part. */
  lemma {:induction false} ReplaceCharConcat(a: string, b: string, c: char, rep: string)
    ensures ReplaceChar(a + b, c, rep) == ReplaceChar(a, c, rep) + ReplaceChar(b, c, rep)
    decreases |a|
  {
    var t := a + b;
    if a == [] {
      assert t == b;
    } else {
      var h := if a[0] == c then rep else [a[0]];
      var tail := a[1..];
      assert t[0] == a[0] && t[1..] == tail + b;
      assert ReplaceChar(t, c, rep) == h + ReplaceChar(tail + b, c, rep);
      ReplaceCharConcat(tail, b, c, rep);
      var y, z := ReplaceChar(tail, c, rep), ReplaceChar(b, c, rep);
      assert h + (y + z) == h + y + z;
    }
  }

  lemma {:induction false} EscapeEachConcat(a: string, b: string)
    ensures EscapeEach(a + b) == EscapeEach(a) + EscapeEach(b)
    decreases |a|
  {
    if a == [] {
      assert a + b == b;
    } else {
      assert (a + b)[0] == a[0];
      assert (a + b)[1..] == a[1..] + b;
      EscapeEachConcat(a[1..], b);
    }
  }

  /**
   * The second pass never touches what the first pass inserted, so the two
   * passes amount to escaping each character on its own.
   */
  lemma {:induction false} EscapeIsPerCharacter(s: string)
    ensures Escape(s) == EscapeEach(s)
    decreases |s|
  {
    if s != [] {
      var inner := ReplaceChar(s, '\\', "\\\\");
      var head := if s[0] == '\\' then "\\\\" else [s[0]];
      assert inner == head + ReplaceChar(s[1..], '\\', "\\\\");
      ReplaceCharConcat(head, ReplaceChar(s[1..], '\\', "\\\\"), '"', "\\\"");
      if s[0] == '\\' {
        assert ReplaceChar(head, '"', "\\\"") == "\\\\" by {
          assert head == ['\\'] + ['\\'];
          ReplaceCharConcat(['\\'], ['\\'], '"', "\\\"");
        }
      } else {
        assert head == [s[0]] + [];
        assert ReplaceChar(head, '"', "\\\"") == EscapeChar(s[0]);
      }
      EscapeIsPerCharacter(s[1..]);
    }
  }

  /** Each backslash and each double quote adds exactly one character. */
  lemma {:induction false} EscapeLength(s: string)
    ensures |Escape(s)| == |s| + Count(s, '\\') + Count(s, '"')
    decreases |s|
  {
    EscapeIsPerCharacter(s);
    if s != [] {
      EscapeIsPerCharacter(s[1..]);
      EscapeLength(s[1..]);
    }
  }

  /** Text without backslashes and double quotes comes out unchanged. */
  lemma {:induction false} EscapeIdentity(s: string)
    requires '\\' !in s && '"' !in s
    ensures Escape(s) == s
  {
  }

  /** Characters a shell would expand inside double quotes; the assembler leaves them as they are. */
  predicate NoExpansion(s: string) {
    '$' !in s && '`' !in s
  }

  /**
   * Round trip: reading `Escape(s)` as the inside of a double-quoted string
   * gives back exactly `s`, and the closing quote after it is the one that
   * ends the string.
   */
  lemma {:induction false} EscapeRoundTrip(s: string, rest: string)
    requires NoExpansion(s)
    ensures ReadDoubleQuoted(Escape(s) + "\"" + rest) == Some((s, rest))
  {
    EscapeIsPerCharacter(s);
    EscapeEachRoundTrip(s, rest);
  }

  lemma {:induction false} EscapeEachRoundTrip(s: string, rest: string)
    requires NoExpansion(s)
    ensures ReadDoubleQuoted(EscapeEach(s) + "\"" + rest) == Some((s, rest))
    decreases |s|
  {
    var t := EscapeEach(s) + "\"" + rest;
    if s == [] {
      assert t == ['"'] + rest;
      assert t[1..] == rest;
    } else {
      var c := s[0];
      assert c != '$' && c != '`';
      var tail := EscapeEach(s[1..]) + "\"" + rest;
      assert t == EscapeChar(c) + tail;
      assert NoExpansion(s[1..]) by {
        assert forall i :: 0 <= i < |s[1..]| ==> s[1..][i] == s[i + 1];
      }
      EscapeEachRoundTrip(s[1..], rest);
      if c == '\\' || c == '"' {
        assert t[0] == '\\' && t[1] == c;
        assert t[2..] == tail;
      } else {
        assert t[0] == c;
        assert t[1..] == tail;
      }
      assert [c] + s[1..] == s;
    }
  }

  /**
   * The converse of the round trip: `$` and backquote are left unescaped,
   * so a text holding either is not read back at all. A shell may expand
   * them; the shell model refuses every `$` and backquote.
   */
  lemma {:induction false} ExpansionNotReadBack(s: string, rest: string)
    requires !NoExpansion(s)
    ensures ReadDoubleQuoted(Escape(s) + "\"" + rest) == None
  {
    EscapeIsPerCharacter(s);
    assert EscapeEach(s) + "\"" + rest == EscapeEach(s) + ("\"" + rest);
    EscapeEachExpansionFails(s, "\"" + rest);
  }

  lemma {:induction false} EscapeEachExpansionFails(s: string, rest: string)
    requires !NoExpansion(s)
    ensures ReadDoubleQuoted(EscapeEach(s) + rest) == None
    decreases |s|
  {
    var c := s[0];
    var tail := EscapeEach(s[1..]) + rest;
    var t := EscapeEach(s) + rest;
    assert t == EscapeChar(c) + tail;
    if c == '$' || c == '`' {
      assert t[0] == c;
    } else {
      assert s == [c] + s[1..];
      assert !NoExpansion(s[1..]);
      EscapeEachExpansionFails(s[1..], rest);
      if c == '\\' || c == '"' {
        assert t[0] == '\\' && t[1] == c;
        assert t[2..] == tail;
      } else {
        assert t[0] == c;
        assert t[1..] == tail;
      }
    }
  }

  /** Number of consecutive backslashes that end just before position `i` of `t`. */
  function BackslashesBefore(t: string, i: nat): nat
    requires i <= |t|
    decreases i
  {
    if i == 0 || t[i - 1] != '\\' then 0 else 1 + BackslashesBefore(t, i - 1)
  }

  /** Every double quote in `t` is preceded by an odd number of backslashes. */
  predicate QuotesArmored(t: string) {
    forall i :: 0 <= i < |t| && t[i] == '"' ==> BackslashesBefore(t, i) % 2 == 1
  }

  lemma {:induction false} BackslashesBeforePrefix(a: string, b: string, i: nat)
    requires i <= |a|
    ensures BackslashesBefore(a + b, i) == BackslashesBefore(a, i)
    decreases i
  {
    if i > 0 {
      assert (a + b)[i - 1] == a[i - 1];
      BackslashesBeforePrefix(a, b, i - 1);
    }
  }

  /**
   * No double quote in the escaped text is preceded by an even number of
   * backslashes, so none of them can end the quoted string; and the text
   * ends after an even run, so the closing quote is not escaped.
   */
  lemma {:induction false} EscapeArmorsQuotes(s: string)
    ensures QuotesArmored(Escape(s))
    ensures BackslashesBefore(Escape(s), |Escape(s)|) % 2 == 0
  {
    EscapeIsPerCharacter(s);
    EscapeEachArmorsQuotes(s);
  }

  lemma {:induction false} EscapeEachArmorsQuotes(s: string)
    ensures QuotesArmored(EscapeEach(s))
    ensures BackslashesBefore(EscapeEach(s), |EscapeEach(s)|) % 2 == 0
    decreases |s|
  {
    if s != [] {
      var init, c := s[..|s| - 1], s[|s| - 1];
      assert s == init + [c];
      EscapeEachConcat(init, [c]);
      assert EscapeEach([c]) == EscapeChar(c) + EscapeEach([]);
      var a, tok := EscapeEach(init), EscapeChar(c);
      assert tok + [] == tok;
      assert EscapeEach(s) == a + tok;
      EscapeEachArmorsQuotes(init);
      AppendEscapedArmored(a, c);
      AppendEscapedEven(a, c);
    }
  }

  /** Appending one escaped character keeps every double quote armored. */
  lemma AppendEscapedArmored(a: string, c: char)
    requires QuotesArmored(a) && BackslashesBefore(a, |a|) % 2 == 0
    ensures QuotesArmored(a + EscapeChar(c))
  {
    var tok := EscapeChar(c);
    var t := a + tok;
    forall i | 0 <= i < |t| && t[i] == '"'
      ensures BackslashesBefore(t, i) % 2 == 1
    {
      if i < |a| {
        assert a[i] == t[i];
        BackslashesBeforePrefix(a, tok, i);
      } else {
        assert c == '"' && i == |a| + 1;
        assert t[i - 1] == '\\';
        BackslashesBeforePrefix(a, tok, |a|);
      }
    }
  }

  /** Appending one escaped character keeps the trailing run of backslashes even. */
  lemma AppendEscapedEven(a: string, c: char)
    requires BackslashesBefore(a, |a|) % 2 == 0
    ensures BackslashesBefore(a + EscapeChar(c), |a + EscapeChar(c)|) % 2 == 0
  {
    var t := a + EscapeChar(c);
    BackslashesBeforePrefix(a, EscapeChar(c), |a|);
    if c == '\\' {
      assert t[|t| - 1] == '\\' && t[|t| - 2] == '\\';
      assert BackslashesBefore(t, |t|) == BackslashesBefore(a, |a|) + 2;
    } else {
      assert t[|t| - 1] != '\\';
    }
  }
}

=== FILE: fonts.dfy ===
/**
 * Font discovery: turning a directory listing into `Font` records.
 * The listing itself (`fs::read_dir`) is an input: either the directory
 * could not be read, or a sequence of entries, each a path or a failed entry.
 */
module Fonts {
  import opened Wrappers
  import opened Text

  /** A font known to the renderer: its name and the directory holding its file. */
  datatype Font = Font(name: string, dir: string)

  /** One item produced while iterating a directory. */
  datatype Entry = Path(path: string) | EntryError

  /** The outcome of opening a directory for listing. */
  datatype Listing = Unreadable | Listed(entries: seq<Entry>)

  datatype ScanError = ReadDirFailed | EntryFailed

  /** A path names a font file when it ends in `.tlf` or `.flf`. */
  predicate IsFontFile(path: string) {
    EndsWith(path, ".tlf") || EndsWith(path, ".flf")
  }

  /** The first newline at or after `p`, or the end of `s`. */
  function LineEnd(s: string, p: nat): (e: nat)
    requires p <= |s|
    ensures p <= e <= |s|
    ensures e < |s| ==> s[e] == '\n'
    ensures forall k :: p <= k < e ==> s[k] != '\n'
    decreases |s| - p
  {
    if p == |s| || s[p] == '\n' then p else LineEnd(s, p + 1)
  }

  /** The last `/` strictly after `lo` and before `hi`, if there is one. */
  function LastSlash(s: string, lo: nat, hi: nat): (r: Option<nat>)
    requires lo <= hi <= |s|
    ensures r.Some? ==> lo < r.value < hi && s[r.value] == '/'
    ensures r.Some? ==> forall k :: r.value < k < hi ==> s[k] != '/'
    ensures r.None? ==> forall k :: lo < k < hi ==> s[k] != '/'
    decreases hi - lo
  {
    if hi <= lo + 1 then None
    else if s[hi - 1] == '/' then Some(hi - 1)
    else LastSlash(s, lo, hi - 1)
  }

  /**
   * The leftmost match, at or after `p`, of the regular expression `.+/`:
   * its start and the position of its final `/`. `.` does not match a
   * newline, and the repetition is greedy, so the match runs to the last
   * `/` of the line it starts in.
   */
  function FirstMatch(s: string, p: nat): (r: Option<(nat, nat)>)
    requires p <= |s|
    ensures r.Some? ==> p <= r.value.0 < r.value.1 < |s| && s[r.value.1] == '/'
    ensures r.Some? ==> forall k :: r.value.0 <= k < r.value.1 ==> s[k] != '\n'
    decreases |s| - p
  {
    if p == |s| then None
    else match LastSlash(s, p, LineEnd(s, p))
      case Some(j) => Some((p, j))
      case None => FirstMatch(s, p + 1)
  }

  /** No match of `.+/` starts at `k`: the rest of `k`'s line holds no `/` after position `k`. */
  predicate NoMatchAt(s: string, k: nat)
    requires k <= |s|
  {
    LastSlash(s, k, LineEnd(s, k)).None?
  }

  /**
   * The match `FirstMatch` finds is the one the regular expression engine
   * reports: its end is the last `/` on the line of its start (greedy), and
   * no earlier start position has a match (leftmost).
   */
  lemma {:induction false} FirstMatchLeftmostGreedy(s: string, p: nat, b: nat, j: nat)
    requires p <= |s| && FirstMatch(s, p) == Some((b, j))
    ensures LastSlash(s, b, LineEnd(s, b)) == Some(j)
    ensures forall k :: p <= k < b ==> NoMatchAt(s, k)
    decreases |s| - p
  {
    if LastSlash(s, p, LineEnd(s, p)).None? {
      assert NoMatchAt(s, p);
      FirstMatchLeftmostGreedy(s, p + 1, b, j);
    }
  }

  /** Without a match, no position starts one. */
  lemma {:induction false} NoFirstMatch(s: string, p: nat)
    requires p <= |s| && FirstMatch(s, p).None?
    ensures forall k :: p <= k <= |s| ==> NoMatchAt(s, k)
    decreases |s| - p
  {
    assert NoMatchAt(s, p);
    if p < |s| {
      NoFirstMatch(s, p + 1);
    }
  }

  /** `Regex::new(".+/").replace(path, "")`: the first match, if any, is removed. */
  function StripDirPrefix(path: string): (r: string)
    ensures |r| <= |path|
  {
    RemoveMatch(path, FirstMatch(path, 0))
  }

  /** `path` with the match `m`, if any, cut out. */
  function RemoveMatch(path: string, m: Option<(nat, nat)>): (r: string)
    requires m.Some? ==> m.value.0 <= m.value.1 < |path|
    ensures |r| <= |path|
  {
    if m.None? then path else path[..m.value.0] + path[m.value.1 + 1..]
  }

  /** A tail of the path that holds no `/` survives the prefix removal. */
  lemma StripKeepsSlashFreeTail(path: string, n: nat)
    requires n <= |path|
    requires forall k :: |path| - n <= k < |path| ==> path[k] != '/'
    ensures EndsWith(StripDirPrefix(path), path[|path| - n..])
  {
    var m := FirstMatch(path, 0);
    if m.Some? {
      assert path[m.value.1] == '/';
      RemoveKeepsTail(path, m.value.0, m.value.1, n);
    }
  }

  /** Cutting out a stretch that ends before the last `n` characters keeps them. */
  lemma RemoveKeepsTail(path: string, p: nat, j: nat, n: nat)
    requires p <= j && j + n < |path|
    ensures EndsWith(RemoveMatch(path, Some((p, j))), path[|path| - n..])
  {
    var x, y := path[..p], path[j + 1..];
    assert (x + y)[|x + y| - n..] == y[|y| - n..];
    assert y[|y| - n..] == path[|path| - n..];
  }

  /**
   * For a path without newlines the removal keeps exactly the text after the
   * last `/`; a `/` only at the very start is not matched, since `.+` needs
   * at least one character before it.
   */
  lemma {:induction false} StripDirPrefixSingleLine(path: string)
    requires '\n' !in path
    ensures forall j :: 0 < j < |path| && path[j] == '/' && SlashFreeAfter(path, j) ==> StripDirPrefix(path) == path[j + 1..]
    ensures forall k :: 0 < k < |path| && path[k] == '/' ==> '/' !in StripDirPrefix(path) && EndsWith(path, StripDirPrefix(path))
    ensures (forall k :: 0 < k < |path| ==> path[k] != '/') ==> StripDirPrefix(path) == path
  {
    forall j | 0 < j < |path| && path[j] == '/' && SlashFreeAfter(path, j)
      ensures StripDirPrefix(path) == path[j + 1..]
    {
      StripToLastSlash(path, j);
    }
    var e := LineEnd(path, 0);
    assert e == |path|;
    match LastSlash(path, 0, e)
    case Some(j) =>
      MatchFromStart(path, j);
      StripAtLastSlash(path, j);
    case None =>
      if |path| > 0 {
        NoMatchAfter(path, 1);
      }
  }

  /** No `/` follows position `j` in `s`. */
  predicate SlashFreeAfter(s: string, j: nat) {
    forall k :: j < k < |s| ==> s[k] != '/'
  }

  /**
   * For a single-line path whose last `/` is at `j > 0`, the removal leaves
   * exactly the text after that `/`.
   */
  lemma StripToLastSlash(path: string, j: nat)
    requires '\n' !in path
    requires 0 < j < |path| && path[j] == '/' && SlashFreeAfter(path, j)
    ensures StripDirPrefix(path) == path[j + 1..]
  {
    var e := LineEnd(path, 0);
    assert e == |path|;
    match LastSlash(path, 0, e)
    case Some(v) =>
      assert v == j;
      MatchFromStart(path, j);
      StripAtLastSlash(path, j);
    case None =>
      assert false;
  }

  /** When the match ends on the path's last `/`, the removal keeps what follows it. */
  lemma StripAtLastSlash(path: string, j: nat)
    requires j < |path| && FirstMatch(path, 0) == Some((0, j))
    requires SlashFreeAfter(path, j)
    ensures StripDirPrefix(path) == path[j + 1..]
    ensures '/' !in path[j + 1..] && EndsWith(path, path[j + 1..])
  {
    var r := path[j + 1..];
    assert RemoveMatch(path, Some((0, j))) == r by {
      assert path[..0] + r == r;
    }
    forall k | 0 <= k < |r|
      ensures r[k] != '/'
    {
      assert r[k] == path[j + 1 + k];
    }
    assert path[|path| - |r|..] == r;
  }

  lemma MatchFromStart(path: string, j: nat)
    requires |path| > 0 && LastSlash(path, 0, LineEnd(path, 0)) == Some(j)
    ensures FirstMatch(path, 0) == Some((0, j))
  {
  }

  lemma {:induction false} NoMatchAfter(path: string, p: nat)
    requires 0 < p <= |path|
    requires forall k :: 0 < k < |path| ==> path[k] != '/'
    ensures FirstMatch(path, p) == None
    decreases |path| - p
  {
    if p < |path| {
      var e := LineEnd(path, p);
      assert LastSlash(path, p, e) == None;
      NoMatchAfter(path, p + 1);
    }
  }

  /**
   * The font name derived from a font file's path: the prefix removed, then
   * the last four characters (the extension) dropped.
   */
  function FontName(path: string): (name: string)
    requires IsFontFile(path)
    ensures name + path[|path| - 4..] == StripDirPrefix(path)
    ensures |name| == |StripDirPrefix(path)| - 4
  {
    assert forall k :: |path| - 4 <= k < |path| ==> path[k] != '/';
    StripKeepsSlashFreeTail(path, 4);
    var relative := StripDirPrefix(path);
    assert relative == relative[..|relative| - 4] + relative[|relative| - 4..];
    relative[..|relative| - 4]
  }

  /** The font one listed path yields: one font for a font file, none otherwise. */
  function FontFor(dir: string, path: string): seq<Font> {
    if IsFontFile(path) then [Font(FontName(path), dir)] else []
  }

  /** Reference definition: the fonts a list of paths in `dir` yields, in listing order. */
  function FontsOf(dir: string, paths: seq<string>): seq<Font>
    decreases |paths|
  {
    if paths == [] then [] else FontFor(dir, paths[0]) + FontsOf(dir, paths[1..])
  }

  /** The paths among the entries, in order. */
  function PathsOf(entries: seq<Entry>): (paths: seq<string>)
    ensures EntryError !in entries ==> |paths| == |entries|
    ensures EntryError !in entries ==> forall i :: 0 <= i < |entries| ==> entries[i] == Path(paths[i])
    decreases |entries|
  {
    if entries == [] then []
    else (match entries[0] case Path(p) => [p] case EntryError => []) + PathsOf(entries[1..])
  }

  /** Scanning a directory: any failure, of the listing or of one entry, gives no fonts at all. */
  function Scan(dir: string, listing: Listing): seq<Font> {
    match listing
    case Unreadable => []
    case Listed(entries) => if EntryError in entries then [] else FontsOf(dir, PathsOf(entries))
  }

  /** `maybe_fonts`: walk the listing, stop at the first failed entry, keep font files. */
  method MaybeFonts(dir: string, listing: Listing) returns (r: Result<seq<Font>, ScanError>)
    ensures listing.Unreadable? ==> r == Err(ReadDirFailed)
    ensures listing.Listed? && EntryError in listing.entries ==> r == Err(EntryFailed)
    ensures listing.Listed? && EntryError !in listing.entries
            ==> r == Ok(FontsOf(dir, PathsOf(listing.entries)))
  {
    if listing.Unreadable? {
      return Err(ReadDirFailed);
    }
    var entries := listing.entries;
    var fonts: seq<Font> := [];
    var i := 0;
    while i < |entries|
      invariant 0 <= i <= |entries|
      invariant EntryError !in entries[..i]
      invariant fonts == FontsOf(dir, PathsOf(entries[..i]))
    {
      if entries[i].EntryError? {
        assert entries[i] in entries;
        return Err(EntryFailed);
      }
      var path := entries[i].path;
      ScanStep(dir, entries, i);
      if IsFontFile(path) {
        fonts := fonts + [Font(FontName(path), dir)];
      }
      assert fonts == FontsOf(dir, PathsOf(entries[..i])) + FontFor(dir, path);
      i := i + 1;
    }
    assert entries[..i] == entries;
    r := Ok(fonts);
  }

  /** One more listed path extends the fonts found so far by that path's font, if any. */
  lemma ScanStep(dir: string, entries: seq<Entry>, i: nat)
    requires i < |entries| && entries[i].Path?
    ensures EntryError !in entries[..i] ==> EntryError !in entries[..i + 1]
    ensures FontsOf(dir, PathsOf(entries[..i + 1]))
         == FontsOf(dir, PathsOf(entries[..i])) + FontFor(dir, entries[i].path)
  {
    assert entries[..i + 1] == entries[..i] + [entries[i]];
    PathsOfConcat(entries[..i], [entries[i]]);
    assert PathsOf([entries[i]]) == [entries[i].path];
    FontsOfConcat(dir, PathsOf(entries[..i]), [entries[i].path]);
    assert FontsOf(dir, [entries[i].path]) == FontFor(dir, entries[i].path) + [];
  }

  lemma {:induction false} PathsOfConcat(a: seq<Entry>, b: seq<Entry>)
    ensures PathsOf(a + b) == PathsOf(a) + PathsOf(b)
    decreases |a|
  {
    if a == [] {
      assert a + b == b;
    } else {
      assert (a + b)[0] == a[0];
      assert (a + b)[1..] == a[1..] + b;
      PathsOfConcat(a[1..], b);
    }
  }

  /** `get_fonts_from_dir`: the fonts of the directory, or none when scanning failed. */
  method GetFontsFromDir(dir: string, listing: Listing) returns (fonts: seq<Font>)
    ensures fonts == Scan(dir, listing)
  {
    var r := MaybeFonts(dir, listing);
    match r
    case Ok(fts) => fonts := fts;
    case Err(_) => fonts := [];
  }

  lemma {:induction false} FontsOfConcat(dir: string, a: seq<string>, b: seq<string>)
    ensures FontsOf(dir, a + b) == FontsOf(dir, a) + FontsOf(dir, b)
    decreases |a|
  {
    if a == [] {
      assert a + b == b;
    } else {
      assert (a + b)[0] == a[0];
      assert (a + b)[1..] == a[1..] + b;
      FontsOfConcat(dir, a[1..], b);
    }
  }

  /**
   * Each font comes from a listed font file and carries the scanned
   * directory; each listed font file yields a font.
   */
  lemma {:induction false} FontsOfMembers(dir: string, paths: seq<string>)
    ensures forall f :: f in FontsOf(dir, paths) ==> f.dir == dir
    ensures forall f :: f in FontsOf(dir, paths) <==>
              exists p :: p in paths && IsFontFile(p) && f == Font(FontName(p), dir)
    ensures |FontsOf(dir, paths)| <= |paths|
    decreases |paths|
  {
    if paths != [] {
      FontsOfMembers(dir, paths[1..]);
      assert forall p :: p in paths <==> p == paths[0] || p in paths[1..];
    }
  }

  /** Filtering keeps listing order: the fonts of a listing are the fonts of each path in turn. */
  lemma FontsOfInOrder(dir: string, paths: seq<string>, i: nat)
    requires i < |paths|
    ensures FontsOf(dir, paths)
         == FontsOf(dir, paths[..i])
            + (if IsFontFile(paths[i]) then [Font(FontName(paths[i]), dir)] else [])
            + FontsOf(dir, paths[i + 1..])
  {
    var before, rest, after := paths[..i], paths[i..], paths[i + 1..];
    assert paths == before + rest;
    FontsOfConcat(dir, before, rest);
    assert rest[0] == paths[i] && rest[1..] == after;
    assert FontsOf(dir, rest) == FontFor(dir, paths[i]) + FontsOf(dir, after);
  }
}

=== FILE: session.dfy ===
/**
 * The session state: the fields the assembler reads, the font catalog and
 * the cyclic index of the selected font. Running the two command lines is
 * outside the model; `Exec` yields the state with the new display command
 * line together with the internal command line that would be run.
 */
module Session {
  import opened Wrappers
  import opened Text
  import opened Shell
  import opened Fonts
  import opened Catalog
  import opened Cmdline

  datatype State = State(
    toiletExe: string,
    toiletCmdline: string,
    input: string,
    flags: string,
    width: Usize,
    defaultFontDir: string,
    fonts: seq<Font>,
    fontIndex: nat)

  /** The index designates a font of the catalog. */
  predicate Selected(st: State) {
    st.fontIndex < |st.fonts|
  }

  /** The scans of the extra font directories, in the order given. */
  function ScanAll(dirs: seq<(string, Listing)>): (scans: seq<seq<Font>>)
    ensures |scans| == |dirs|
    decreases |dirs|
  {
    if dirs == [] then [] else [Scan(dirs[0].0, dirs[0].1)] + ScanAll(dirs[1..])
  }

  lemma {:induction false} ScanAllSnoc(dirs: seq<(string, Listing)>, i: nat)
    requires i < |dirs|
    ensures ScanAll(dirs[..i + 1]) == ScanAll(dirs[..i]) + [Scan(dirs[i].0, dirs[i].1)]
    decreases i
  {
    var a := dirs[..i + 1];
    assert a[1..] == dirs[1..][..i];
    if i > 0 {
      ScanAllSnoc(dirs[1..], i - 1);
      assert dirs[..i][1..] == dirs[1..][..i - 1];
      assert dirs[1..][i - 1] == dirs[i];
    }
  }

  /**
   * `State::new` once the renderer has been verified and its font
   * directory found: the catalog is scanned from the default directory and
   * then each extra directory, sorted, and the first font is selected.
   */
  method New(toiletExe: string, defaultFontDir: string, defaultListing: Listing,
             fontDirs: seq<(string, Listing)>) returns (st: State)
    ensures StableSortOf(st.fonts, Scan(defaultFontDir, defaultListing) + Flatten(ScanAll(fontDirs)))
    ensures st.fontIndex == 0 && (Selected(st) <==> st.fonts != [])
    ensures st.toiletExe == toiletExe && st.defaultFontDir == defaultFontDir
    ensures st.input == [] && st.flags == [] && st.toiletCmdline == [] && st.width == 0
  {
    var defaultFonts := GetFontsFromDir(defaultFontDir, defaultListing);
    var extraFonts := ScanDirs(fontDirs);
    st := State(toiletExe, [], [], [], 0, defaultFontDir, BuildCatalog(defaultFonts, extraFonts), 0);
  }

  /** The loop over the extra directories: each one's fonts, in the order given. */
  method ScanDirs(fontDirs: seq<(string, Listing)>) returns (scans: seq<seq<Font>>)
    ensures scans == ScanAll(fontDirs)
  {
    scans := [];
    var i := 0;
    while i < |fontDirs|
      invariant 0 <= i <= |fontDirs|
      invariant scans == ScanAll(fontDirs[..i])
    {
      var more := GetFontsFromDir(fontDirs[i].0, fontDirs[i].1);
      ScanAllSnoc(fontDirs, i);
      scans := scans + [more];
      i := i + 1;
    }
    assert fontDirs[..i] == fontDirs;
  }

  /** `font()`: the selected font. */
  function SelectedFont(st: State): (f: Font)
    requires Selected(st)
    ensures f in st.fonts
  {
    st.fonts[st.fontIndex]
  }

  /** `next_font()`: select the following font, wrapping from the last to the first, and return it. */
  function NextFont(st: State): (r: (Font, State))
    requires |st.fonts| > 0
    ensures r.1 == st.(fontIndex := r.1.fontIndex)
    ensures Selected(r.1) && r.0 == r.1.fonts[r.1.fontIndex]
    ensures Selected(st) && st.fontIndex + 1 < |st.fonts| ==> r.1.fontIndex == st.fontIndex + 1
    ensures Selected(st) && st.fontIndex + 1 == |st.fonts| ==> r.1.fontIndex == 0
  {
    StepForward(st.fontIndex, |st.fonts|);
    var st' := st.(fontIndex := (st.fontIndex + 1) % |st.fonts|);
    (SelectedFont(st'), st')
  }

  /** `prev_font()`: select the preceding font, wrapping from the first to the last, and return it. */
  function PrevFont(st: State): (r: (Font, State))
    requires |st.fonts| > 0
    ensures r.1 == st.(fontIndex := r.1.fontIndex)
    ensures Selected(r.1) && r.0 == r.1.fonts[r.1.fontIndex]
    ensures Selected(st) && st.fontIndex > 0 ==> r.1.fontIndex == st.fontIndex - 1
    ensures Selected(st) && st.fontIndex == 0 ==> r.1.fontIndex == |st.fonts| - 1
  {
    StepBack(st.fontIndex, |st.fonts|);
    var st' := st.(fontIndex := (st.fontIndex + |st.fonts| - 1) % |st.fonts|);
    (SelectedFont(st'), st')
  }

  /** Stepping back after stepping forward returns to the same selection. */
  lemma PrevUndoesNext(st: State)
    requires Selected(st)
    ensures PrevFont(NextFont(st).1).1 == st
  {
  }

  /** Stepping forward after stepping back returns to the same selection. */
  lemma NextUndoesPrev(st: State)
    requires Selected(st)
    ensures NextFont(PrevFont(st).1).1 == st
  {
  }

  /** The state after `k` presses of the down key. */
  function NextTimes(st: State, k: nat): (r: State)
    requires |st.fonts| > 0
    ensures r.fonts == st.fonts
    decreases k
  {
    if k == 0 then st else NextTimes(NextFont(st).1, k - 1)
  }

  /**
   * `k` steps forward land `k` places further on, cyclically: every font
   * can be reached, and `|fonts|` steps come back to the start.
   */
  lemma {:induction false} NextTimesIndex(st: State, k: nat)
    requires Selected(st)
    ensures NextTimes(st, k) == st.(fontIndex := (st.fontIndex + k) % |st.fonts|)
    decreases k
  {
    if k > 0 {
      var len, i := |st.fonts|, st.fontIndex;
      var st1 := NextFont(st).1;
      NextIndex(st);
      NextTimesIndex(st1, k - 1);
      ModAddLeft(i + 1, k - 1, len);
      assert (i + 1) + (k - 1) == i + k;
    }
  }

  /** One step forward is one place further on, modulo the number of fonts. */
  lemma NextIndex(st: State)
    requires |st.fonts| > 0
    ensures NextFont(st).1 == st.(fontIndex := (st.fontIndex + 1) % |st.fonts|)
  {
  }

  /** One place on from `i`, cyclically: the following index, or 0 after the last. */
  lemma StepForward(i: nat, len: nat)
    requires len > 0
    ensures i + 1 < len ==> (i + 1) % len == i + 1
    ensures i + 1 == len ==> (i + 1) % len == 0
  {
    if i + 1 < len {
      ModUnique(i + 1, len, 0, i + 1);
    } else if i + 1 == len {
      ModUnique(i + 1, len, 1, 0);
    }
  }

  /** One place back from `i`, cyclically: the preceding index, or the last after 0. */
  lemma StepBack(i: nat, len: nat)
    requires len > 0
    ensures 0 < i < len ==> (i + len - 1) % len == i - 1
    ensures i == 0 ==> (i + len - 1) % len == len - 1
  {
    if 0 < i < len {
      ModUnique(i + len - 1, len, 1, i - 1);
    } else if i == 0 {
      ModUnique(i + len - 1, len, 0, len - 1);
    }
  }

  /** Division with remainder has one answer. */
  lemma ModUnique(x: int, n: int, q: int, r: int)
    requires n > 0 && 0 <= r < n && x == q * n + r
    ensures x % n == r
  {
    var q0, r0 := x / n, x % n;
    assert x == q0 * n + r0;
    assert (q - q0) * n == r0 - r;
    if q > q0 {
      MulAtLeast(q - q0, n);
    } else if q < q0 {
      MulAtLeast(q0 - q, n);
    }
  }

  lemma MulAtLeast(d: int, n: int)
    requires d >= 1 && n > 0
    ensures d * n >= n
  {
    assert d * n == (d - 1) * n + n;
  }

  lemma ModAddLeft(a: nat, b: nat, n: nat)
    requires n > 0
    ensures (a % n + b) % n == (a + b) % n
  {
    var q := a / n;
    var s := a % n + b;
    assert a == q * n + a % n;
    var q2, r2 := s / n, s % n;
    assert s == q2 * n + r2;
    assert a + b == (q + q2) * n + r2;
    ModUnique(a + b, n, q + q2, r2);
  }

  function RequestOf(st: State): Cmdline.Request
    requires Selected(st)
  {
    Request(st.toiletExe, st.flags, SelectedFont(st), st.defaultFontDir, st.input, st.width)
  }

  /**
   * `exec()` up to running the commands: the display command line of the
   * current request is stored and nothing else in the state changes; the internal command line
   * returned is the display one with the width argument put in right after
   * the font arguments. When the command lines are readable by the shell
   * model, both split into the intended renderer arguments.
   */
  function Exec(st: State): (r: (State, string))
    requires Selected(st)
    ensures r.0.toiletCmdline == Display(RequestOf(st)) && r.1 == Internal(RequestOf(st))
    ensures r.0 == st.(toiletCmdline := r.0.toiletCmdline)
    ensures var k := |Prefix(RequestOf(st))|;
            && k <= |r.0.toiletCmdline|
            && r.1 == r.0.toiletCmdline[..k] + WidthPart(RequestOf(st)) + r.0.toiletCmdline[k..]
    ensures ShellReadable(RequestOf(st)) ==>
              && Words(r.0.toiletCmdline) == Some(DisplayArgv(RequestOf(st)))
              && Words(r.1) == Some(InternalArgv(RequestOf(st)))
  {
    var q := RequestOf(st);
    SliceThree(Prefix(q), [], QuotedInput(q.input));
    assert Prefix(q) + [] + QuotedInput(q.input) == Display(q);
    ReadableWords(q);
    (st.(toiletCmdline := Display(q)), Internal(q))
  }
}

=== FILE: shell.dfy ===
/**
 * The part of POSIX shell word splitting that the renderer command lines
 * rely on (POSIX.1-2017 Shell Command Language, sections 2.2 and 2.3):
 * blanks separate words, and single quotes, double quotes and backslash
 * quote characters. Anything that would make the shell do more than split
 * words (expansions, operators, globbing, comments, line continuation) is
 * reported as `None`: such command lines are outside this model.
 */
module Shell {
  import opened Wrappers

  predicate Blank(c: char) {
    c == ' ' || c == '\t'
  }

  /** Unquoted characters that start an operator, expansion, pattern or comment. */
  predicate Special(c: char) {
    c in "|&;<>()$`*?[#~\n"
  }

  /** Characters that stand for themselves when unquoted. */
  predicate Ordinary(c: char) {
    !Blank(c) && !Special(c) && c != '"' && c != '\'' && c != '\\'
  }

  /** A non-empty run of ordinary characters: one word, read as written. */
  predicate PlainWord(w: string) {
    w != [] && forall i :: 0 <= i < |w| ==> Ordinary(w[i])
  }

  /** The reserved words of section 2.4, recognised where a command name may stand. */
  predicate Reserved(w: string) {
    w in ["!", "{", "}", "case", "do", "done", "elif", "else", "esac", "fi", "for", "if", "in", "then", "until", "while"]
  }

  /**
   * A plain word the shell runs as a program when it comes first: not a
   * variable assignment (section 2.10.2, rule 7b, which needs a `=`) and
   * not a reserved word.
   */
  predicate CommandName(w: string) {
    PlainWord(w) && '=' !in w && !Reserved(w)
  }

  /** After a backslash inside double quotes, these characters lose their special meaning (section 2.2.3). */
  predicate DoubleQuoteEscapable(c: char) {
    c == '$' || c == '`' || c == '"' || c == '\\'
  }

  function PrependChar(c: char, r: Option<(string, string)>): Option<(string, string)> {
    match r
    case None => None
    case Some((body, rest)) => Some(([c] + body, rest))
  }

  /**
   * Reads the inside of a double-quoted string; `t` starts just after the
   * opening quote. Yields the quoted text and what follows the closing quote,
   * or `None` when the quote is never closed or an expansion (`$`, backquote)
   * would take place.
   */
  function ReadDoubleQuoted(t: string): (r: Option<(string, string)>)
    ensures r.Some? ==> |r.value.1| < |t|
    decreases |t|
  {
    if t == [] then None
    else if t[0] == '"' then Some(([], t[1..]))
    else if t[0] == '$' || t[0] == '`' then None
    else if t[0] == '\\' then
      if |t| == 1 then None
      else if DoubleQuoteEscapable(t[1]) then PrependChar(t[1], ReadDoubleQuoted(t[2..]))
      else if t[1] == '\n' then ReadDoubleQuoted(t[2..])
      else PrependChar('\\', ReadDoubleQuoted(t[1..]))
    else PrependChar(t[0], ReadDoubleQuoted(t[1..]))
  }

  /** Reads the inside of a single-quoted string (section 2.2.2): everything up to the next single quote. */
  function ReadSingleQuoted(t: string): (r: Option<(string, string)>)
    ensures r.Some? ==> |r.value.1| < |t|
    decreases |t|
  {
    if t == [] then None
    else if t[0] == '\'' then Some(([], t[1..]))
    else PrependChar(t[0], ReadSingleQuoted(t[1..]))
  }

  function ConsWord(w: string, r: Option<seq<string>>): Option<seq<string>> {
    match r
    case None => None
    case Some(ws) => Some([w] + ws)
  }

  /** The words of `t`, which starts outside any word. */
  function Words(t: string): Option<seq<string>>
    decreases |t|, 1
  {
    if t == [] then Some([])
    else if Blank(t[0]) then Words(t[1..])
    else InWord(t, [])
  }

  /** The words of `t` when the current word has `acc` so far. */
  function InWord(t: string, acc: string): Option<seq<string>>
    decreases |t|, 0
  {
    if t == [] then Some([acc])
    else if Blank(t[0]) then ConsWord(acc, Words(t[1..]))
    else if t[0] == '"' then
      match ReadDoubleQuoted(t[1..])
      case None => None
      case Some((body, rest)) => InWord(rest, acc + body)
    else if t[0] == '\'' then
      match ReadSingleQuoted(t[1..])
      case None => None
      case Some((body, rest)) => InWord(rest, acc + body)
    else if t[0] == '\\' then
      if |t| == 1 || t[1] == '\n' then None
      else InWord(t[2..], acc + [t[1]])
    else if Special(t[0]) then None
    else InWord(t[1..], acc + [t[0]])
  }

  /** A string of ordinary characters is one word. */
  lemma {:induction false} PlainWordWords(w: string)
    requires PlainWord(w)
    ensures Words(w) == Some([w])
  {
    assert Ordinary(w[0]);
    PlainInWord(w, []);
    assert [] + w == w;
  }

  lemma {:induction false} PlainInWord(w: string, acc: string)
    requires forall i :: 0 <= i < |w| ==> Ordinary(w[i])
    ensures InWord(w, acc) == Some([acc + w])
    decreases |w|
  {
    if w == [] {
      assert acc + w == acc;
    } else {
      PlainInWord(w[1..], acc + [w[0]]);
      assert acc + [w[0]] + w[1..] == acc + w;
    }
  }

  /** Reading a double-quoted string is unaffected by what follows its closing quote. */
  lemma {:induction false} ReadDoubleQuotedExtend(t: string, u: string)
    requires ReadDoubleQuoted(t).Some?
    ensures ReadDoubleQuoted(t + u)
         == Some((ReadDoubleQuoted(t).value.0, ReadDoubleQuoted(t).value.1 + u))
    decreases |t|
  {
    var tu := t + u;
    assert tu[0] == t[0];
    if t[0] == '"' {
      assert tu[1..] == t[1..] + u;
    } else if t[0] == '\\' {
      assert tu[1] == t[1];
      if DoubleQuoteEscapable(t[1]) || t[1] == '\n' {
        assert tu[2..] == t[2..] + u;
        ReadDoubleQuotedExtend(t[2..], u);
      } else {
        assert tu[1..] == t[1..] + u;
        ReadDoubleQuotedExtend(t[1..], u);
      }
    } else {
      assert tu[1..] == t[1..] + u;
      ReadDoubleQuotedExtend(t[1..], u);
    }
  }

  lemma {:induction false} ReadSingleQuotedExtend(t: string, u: string)
    requires ReadSingleQuoted(t).Some?
    ensures ReadSingleQuoted(t + u)
         == Some((ReadSingleQuoted(t).value.0, ReadSingleQuoted(t).value.1 + u))
    decreases |t|
  {
    var tu := t + u;
    assert tu[0] == t[0];
    assert tu[1..] == t[1..] + u;
    if t[0] != '\'' {
      ReadSingleQuotedExtend(t[1..], u);
    }
  }

  /** Two well-formed command texts joined by a space have the words of both, in order. */
  lemma {:induction false} WordsJoin(a: string, b: string)
    requires Words(a).Some? && Words(b).Some?
    ensures Words(a + " " + b) == Some(Words(a).value + Words(b).value)
    decreases |a|, 1
  {
    var t := a + " " + b;
    if a == [] {
      assert t == [' '] + b;
      assert t[1..] == b;
      assert Blank(t[0]);
      assert Words(a).value + Words(b).value == Words(b).value;
    } else {
      assert t[0] == a[0];
      if Blank(a[0]) {
        assert t[1..] == a[1..] + " " + b;
        WordsJoin(a[1..], b);
      } else {
        InWordJoin(a, [], b);
      }
    }
  }

  lemma {:induction false} InWordJoin(a: string, acc: string, b: string)
    requires InWord(a, acc).Some? && Words(b).Some?
    ensures InWord(a + " " + b, acc) == Some(InWord(a, acc).value + Words(b).value)
    decreases |a|, 0
  {
    var t := a + " " + b;
    if a == [] {
      assert t == [' '] + b;
      assert t[1..] == b;
    } else if Blank(a[0]) {
      assert t[0] == a[0];
      assert t[1..] == a[1..] + " " + b;
      WordsJoin(a[1..], b);
      var wa := Words(a[1..]).value;
      var wb := Words(b).value;
      assert InWord(a, acc) == Some([acc] + wa);
      assert InWord(t, acc) == Some([acc] + (wa + wb));
      assert [acc] + (wa + wb) == [acc] + wa + wb;
    } else if a[0] == '"' || a[0] == '\'' {
      var r := QuotedStep(a, acc, b);
      InWordJoin(r.1, acc + r.0, b);
    } else if a[0] == '\\' {
      assert t[0] == a[0] && t[1] == a[1];
      assert t[2..] == a[2..] + " " + b;
      InWordJoin(a[2..], acc + [a[1]], b);
    } else {
      assert t[0] == a[0];
      assert t[1..] == a[1..] + " " + b;
      InWordJoin(a[1..], acc + [a[0]], b);
    }
  }

  /**
   * A quoted string at the front of `a` is read the same whether or not
   * ` b` follows `a`; `r` is its body and what comes after it.
   */
  lemma QuotedStep(a: string, acc: string, b: string) returns (r: (string, string))
    requires a != [] && (a[0] == '"' || a[0] == '\'') && InWord(a, acc).Some?
    ensures |r.1| < |a|
    ensures InWord(a, acc) == InWord(r.1, acc + r.0)
    ensures InWord(a + " " + b, acc) == InWord(r.1 + " " + b, acc + r.0)
  {
    var t := a + " " + b;
    assert t[0] == a[0];
    assert t[1..] == a[1..] + (" " + b);
    if a[0] == '"' {
      r := ReadDoubleQuoted(a[1..]).value;
      ReadDoubleQuotedExtend(a[1..], " " + b);
    } else {
      r := ReadSingleQuoted(a[1..]).value;
      ReadSingleQuotedExtend(a[1..], " " + b);
    }
    assert r.1 + " " + b == r.1 + (" " + b);
  }

  /** A plain word followed by a space and more words. */
  lemma WordsCons(w: string, b: string)
    requires PlainWord(w) && Words(b).Some?
    ensures Words(w + " " + b) == Some([w] + Words(b).value)
  {
    PlainWordWords(w);
    WordsJoin(w, b);
  }
}

=== FILE: text.dfy ===
/**
 * String helpers used by the command assembler and the font scanner:
 * character counts, prefix/suffix/substring tests, ASCII lower-casing,
 * lexicographic order, and decimal formatting of naturals.
 */
module Text {

  /** Number of occurrences of `c` in `s`. */
  function Count(s: string, c: char): (n: nat)
    ensures n <= |s|
    ensures n == 0 <==> c !in s
  {
    if s == [] then 0 else (if s[0] == c then 1 else 0) + Count(s[1..], c)
  }

  predicate StartsWith(s: string, p: string) {
    |p| <= |s| && s[..|p|] == p
  }

  predicate EndsWith(s: string, p: string) {
    |p| <= |s| && s[|s| - |p|..] == p
  }

  /** `s.contains(p)` for a string pattern, scanning start positions left to right. */
  predicate Contains(s: string, p: string)
    decreases |s|
  {
    StartsWith(s, p) || (|s| > 0 && Contains(s[1..], p))
  }

  /** The window of `s` starting at `i` spells `p`. */
  predicate WindowAt(s: string, p: string, i: nat) {
    i + |p| <= |s| && s[i..i + |p|] == p
  }

  /** Some window of `s` spells `p`. */
  ghost predicate Occurs(s: string, p: string) {
    exists i: nat :: WindowAt(s, p, i)
  }

  /** The scanning test agrees with the window definition, in both directions. */
  lemma ContainsIffOccurs(s: string, p: string)
    ensures Contains(s, p) <==> Occurs(s, p)
  {
    if Contains(s, p) {
      var i := ContainsWitness(s, p);
    }
    if Occurs(s, p) {
      var i: nat :| WindowAt(s, p, i);
      WindowContains(s, p, i);
    }
  }

  /** Where the scan succeeds, there is a matching window. */
  lemma {:induction false} ContainsWitness(s: string, p: string) returns (i: nat)
    requires Contains(s, p)
    ensures WindowAt(s, p, i)
    decreases |s|
  {
    if StartsWith(s, p) {
      i := 0;
    } else {
      var j := ContainsWitness(s[1..], p);
      i := j + 1;
      assert s[i..i + |p|] == s[1..][j..j + |p|];
    }
  }

  /** A matching window is found by the scan. */
  lemma {:induction false} WindowContains(s: string, p: string, i: nat)
    requires WindowAt(s, p, i)
    ensures Contains(s, p)
    decreases i
  {
    if i > 0 {
      assert s[1..][i - 1..i - 1 + |p|] == s[i..i + |p|];
      WindowContains(s[1..], p, i - 1);
    }
  }

  /** ASCII case folding of one character: `A`-`Z` become `a`-`z`, everything else is kept. */
  function LowerChar(c: char): char {
    if 'A' <= c <= 'Z' then (c as int + 32) as char else c
  }

  function AsciiLower(s: string): (r: string)
    ensures |r| == |s|
    ensures forall i :: 0 <= i < |s| ==> r[i] == LowerChar(s[i])
  {
    if s == [] then [] else [LowerChar(s[0])] + AsciiLower(s[1..])
  }

  /**
   * Lexicographic order on code points, as `Ord` for strings compares them:
   * a proper prefix comes first.
   */
  predicate LexLe(a: string, b: string)
    decreases |a|
  {
    a == [] || (b != [] && (a[0] < b[0] || (a[0] == b[0] && LexLe(a[1..], b[1..]))))
  }

  lemma {:induction false} LexLeReflexive(a: string)
    ensures LexLe(a, a)
    decreases |a|
  {
    if a != [] {
      LexLeReflexive(a[1..]);
    }
  }

  lemma {:induction false} LexLeTotal(a: string, b: string)
    ensures LexLe(a, b) || LexLe(b, a)
    decreases |a|
  {
    if a != [] && b != [] && a[0] == b[0] {
      LexLeTotal(a[1..], b[1..]);
    }
  }

  lemma {:induction false} LexLeTransitive(a: string, b: string, c: string)
    requires LexLe(a, b) && LexLe(b, c)
    ensures LexLe(a, c)
    decreases |a|
  {
    if a != [] && a[0] == b[0] && b[0] == c[0] {
      LexLeTransitive(a[1..], b[1..], c[1..]);
    }
  }

  lemma {:induction false} LexLeAntisymmetric(a: string, b: string)
    requires LexLe(a, b) && LexLe(b, a)
    ensures a == b
    decreases |a|
  {
    if a != [] {
      LexLeAntisymmetric(a[1..], b[1..]);
      assert a == [a[0]] + a[1..];
      assert b == [b[0]] + b[1..];
    }
  }

  predicate IsDigit(c: char) {
    '0' <= c <= '9'
  }

  function DigitChar(d: nat): (c: char)
    requires d < 10
    ensures IsDigit(c)
  {
    ('0' as int + d) as char
  }

  /** `format!("{}", n)` for an unsigned integer: decimal, no sign, no leading zero. */
  function NatToString(n: nat): (r: string)
    ensures r != []
    ensures forall i :: 0 <= i < |r| ==> IsDigit(r[i])
    ensures n > 0 ==> r[0] != '0'
    ensures |r| > 1 ==> r[0] != '0'
    ensures n == 0 ==> r == "0"
    decreases n
  {
    if n < 10 then [DigitChar(n)] else NatToString(n / 10) + [DigitChar(n % 10)]
  }

  /** Reading a string of decimal digits back as a number. */
  function ParseDecimal(s: string): nat
    requires forall i :: 0 <= i < |s| ==> IsDigit(s[i])
    decreases |s|
  {
    if s == [] then 0
    else
      assert IsDigit(s[|s| - 1]);
      ParseDecimal(s[..|s| - 1]) * 10 + (s[|s| - 1] as int - '0' as int)
  }

  /** The decimal text of `n` reads back as `n`. */
  lemma {:induction false} ParseNatToString(n: nat)
    ensures ParseDecimal(NatToString(n)) == n
    decreases n
  {
    var r := NatToString(n);
    if n >= 10 {
      ParseNatToString(n / 10);
      assert r[..|r| - 1] == NatToString(n / 10);
    }
  }

  /** Slicing `p + m + s` at the borders of its three parts. */
  lemma SliceThree(p: string, m: string, s: string)
    ensures (p + m + s)[..|p|] == p
    ensures (p + m + s)[|p|..|p| + |m|] == m
    ensures (p + m + s)[|p| + |m|..] == s
    ensures (p + m + s)[|p|..] == m + s
  {
  }

  /**
   * After a common prefix `p` comes either nothing optional or `frag + d`;
   * when what follows differs from `frag` at position `i`, the text after
   * `p` starts with `frag` exactly when the optional part is present.
   */
  lemma OptionalAfter(p: string, w: string, t: string, frag: string, d: string, i: nat)
    requires w == [] || w == frag + d
    requires i < |t| && i < |frag| && t[i] != frag[i]
    ensures StartsWith((p + w + t)[|p|..], frag) <==> w != []
  {
    SliceThree(p, w, t);
    if w == [] {
      assert w + t == t;
      assert !StartsWith(t, frag) by {
        if |frag| <= |t| {
          assert t[..|frag|][i] == t[i];
        }
      }
    } else {
      assert w + t == frag + (d + t);
      assert (frag + (d + t))[..|frag|] == frag;
    }
  }
}

=== FILE: wrappers.dfy ===
/** Failure-carrying result types shared by the other modules. */
module Wrappers {

  /** A value that may be absent. */
  datatype Option<+T> = None | Some(value: T)

  /** Either a computed value or the error that stopped the computation. */
  datatype Result<+T, +E> = Ok(value: T) | Err(error: E)
}
